=== FILE: README.md ===
# FlexSim connection demo — a Dafny model

This project models the controller side of the Python–FlexSim socket demo in
`connection_demo.py`. The Python program listens on a TCP port and waits for
the FlexSim model to connect and say `READY`. It answers the configuration
prompt with the simulation speed `4`. Then it serves the model's commands
(`maxprod`, `product`, `type`, `rack`, `slot`, `done`) until `done` delivers
the travelled distance or something goes wrong.

The model is split into eight modules that follow the program's layers:

- `Wire` (wire.dfy): bytes, the error kinds and a `Result` type.
- `Framing` (framing.dfy): `_socket_recv`. This is a pure function over the
  chunks that successive `recv` calls return. A message ends at the first
  chunk whose *last* byte is `!`. An empty chunk means the peer closed.
- `Sending` (sending.dfy): `_socket_send`. This is the partial-write loop, as
  a function (`Transmit`) and as a method with loop invariants
  (`SocketSend`). The socket is an oracle from the number of a `send` call to
  the byte count that call reports.
- `Channel` (channel.dfy): the one accepted connection. It holds the chunks
  still to arrive, the number of send calls made, and the replies delivered.
- `Commands` (commands.dfy) and `Decimal` (decimal.dfy): the command tokens,
  the product types, the rack and slot tables, `"ID_" + str(i)` and the
  decimal text of numbers.
- `Dispatch` (dispatch.dfy): the `while not done` loop of `main` as a step
  function over a state (connection, product counter, number of `type`
  choices made). `Run` iterates it until it stops.
- `Session` (session.dfy): a whole run. It covers the READY handshake,
  configuration, the loop, and the close calls after it. `random.choice` is a
  parameter `pick` that says which type the n-th `type` command is answered
  with.

The model keeps these behaviours of the code:

- A failure inside the command loop is caught by the bare `except`. The
  program closes and carries on normally; nothing is surfaced to a caller.
  The model still keeps the error in the `Abandoned` outcome so that
  properties can talk about it.
- On that path the close routine runs twice: once in the handler and once
  after the loop. The model counts the calls (`Report.closes` is 2); it does
  not claim a single release.
- A failure during the handshake or configuration is not caught at all. The
  model reports it as `Raised`, with no close call. A broken connection
  before `READY` is reported as `ConnectionBroken`, and a wrong first message
  as `NotReady`.
- A command outside the table is read and ignored: nothing is sent and the
  loop goes on.
- A lookup of an unknown product type in `rack`/`slot` raises `KeyError`, and
  that also ends the loop through the `except`
  (`UnknownProductType(token)` in the model).

## Model

| member | source | states |
|---|---|---|
| Wire.AsciiAt | connection_demo.py:134 | each byte of `.encode()` of an ASCII string is the code of the character at the same position |
| Wire.Concat | connection_demo.py:113 | `b''.join`: no chunks join to nothing, one chunk joins to itself, and a longer join starts with the first chunk |
| Framing.Frame | connection_demo.py:108-110 | the wire form of a message is the message followed by one `!`, which ends the frame |
| Framing.Recv | connection_demo.py:99-113 | a successful read ends at a chunk whose last byte is `!`, and the message plus `!` is exactly the used chunks joined; the only failure is a broken connection |
| Framing.RecvFrames | connection_demo.py:104-112 | every chunk a successful read used before the terminating one was non-empty and did not end in `!` |
| Framing.RecvFindsFrame | connection_demo.py:104-112 | wherever the first terminating chunk is, the read stops there and uses exactly those chunks |
| Framing.RecvSpec | connection_demo.py:99-113 | the read returns message m using k chunks if and only if chunk k is the first to end in `!` after non-empty chunks and m + `!` is the join of the first k chunks |
| Framing.RecvBrokenSpec | connection_demo.py:104-107 | the read fails if and only if no chunk ends a frame before an empty chunk or the end of the input |
| Framing.EmptyReadBreaks | connection_demo.py:105-107 | an empty chunk before any terminating chunk raises "Socket connection broken" and yields no message |
| Framing.FrameRoundTrip | connection_demo.py:108-113 | when the whole frame arrives in one read, the message comes back unchanged whatever follows it, even if it contains `!` |
| Framing.ChunkingInvariance | connection_demo.py:103-113 | every split of X + `!` into non-empty chunks, X free of `!`, reads back as X and consumes exactly those chunks |
| Framing.InnerBangKept | connection_demo.py:108-112 | a `!` in the middle of a chunk, and every byte after it, stays part of the message |
| Sending.Transmit | connection_demo.py:92-97 | the loop ends with a total of at least the message length and never moves back; otherwise it raises "Socket connection broken", at the first call that reported 0, after every earlier call sent something and at most one call per byte still to send |
| Sending.TransmitExact | connection_demo.py:92-97 | if every call sends between 1 byte and what is left, the total ends exactly at the message length |
| Sending.ExactWhenFits | connection_demo.py:92-97 | with a well-behaved socket a whole message goes out with the total exactly its length |
| Sending.ZeroWriteBreaks | connection_demo.py:93-96 | a call reporting 0 bytes at any point of the loop, whatever total has already gone out, raises "Socket connection broken" while bytes remain |
| Sending.SendStep | connection_demo.py:93-97 | one pass of the loop takes a non-empty slice, extends what went out by it, and the loop carries on where Transmit does |
| Sending.SliceExtends | connection_demo.py:94-97 | what one call takes, appended to what went before, is the next prefix of the message |
| Sending.SocketSend | connection_demo.py:88-97 | the loop computes the same result as Transmit; on success the slices taken by the calls are non-empty and join to the message in order, one per call; a well-behaved socket always succeeds with the exact total |
| Channel.Receive | connection_demo.py:99-113 | a receive succeeds exactly when the framed read does, returns the read's message, and leaves exactly the chunks after the frame; it sends nothing and can only fail with a broken connection |
| Channel.Send | connection_demo.py:88-97 | a send succeeds exactly when the partial-write loop does, and then it delivers the reply after all earlier ones, reads nothing and continues from the loop's next call; failure is a broken connection; a socket that never reports 0 never fails |
| Decimal.Show | connection_demo.py:149 | `str(n)` is non-empty, all decimal digits, with no leading zero, and one digit exactly when n < 10 |
| Decimal.ValueOfShow | connection_demo.py:149 | reading the digits of `str(n)` back gives n |
| Decimal.ShowInjective | connection_demo.py:153 | different numbers have different decimal text |
| Commands.Classify | connection_demo.py:148-188 | a message is recognised as a command only if it is exactly that command's token |
| Commands.ClassifyToken | connection_demo.py:148-188 | every command token selects its own branch, and a message selects no branch if and only if it is none of the six tokens |
| Commands.MaxProdText | connection_demo.py:137-149 | the `maxprod` answer `str(MAX_PROD)` is the text "15" |
| Commands.TypeToken | connection_demo.py:159 | the `type` answer is one byte, one of "A", "B", "C" and "D" |
| Commands.Rack | connection_demo.py:167 | the rack is one byte: "1" exactly for A and B, "2" exactly for C and D |
| Commands.Slot | connection_demo.py:177 | the slot is one byte: "1" exactly for A and C, "2" exactly for B and D |
| Commands.ProductId | connection_demo.py:153 | the label is "ID_" followed by the decimal text of the number |
| Commands.Lookup | connection_demo.py:167-168 | a lookup succeeds exactly for the four type names and returns the type so named; any other token fails with that token |
| Commands.LookupTypeToken | connection_demo.py:159-168 | every type the chooser can send back is found in the tables |
| Commands.Address | connection_demo.py:176-180 | the slot answer is nine bytes with the rack at position 2 and the slot at position 4 |
| Commands.AddressTable | connection_demo.py:176-180 | the four addresses are 1-1-1-2-1, 1-1-2-2-1, 1-2-1-2-1 and 1-2-2-2-1 for A, B, C and D |
| Commands.AddressInjective | connection_demo.py:176-180 | two types get the same address if and only if they are the same type |
| Commands.ProductIdInjective | connection_demo.py:153 | two product labels are equal if and only if their numbers are |
| Commands.FirstLabel | connection_demo.py:142-153 | the label for i = 1 reads "ID_1" |
| Commands.OnlyLabelsAreIds | connection_demo.py:149-185 | product labels start with "ID_" and no other reply the controller sends does |
| Dispatch.Answer | connection_demo.py:149-150 | answering appends exactly that reply and stops exactly when its send fails; a stop leaves the state unchanged and reports a broken connection |
| Dispatch.Ask | connection_demo.py:164-165 | a failed "ireq" send fails the ask; after a successful one the ask succeeds exactly when the read does, returns the message read and leaves the chunks after it; a successful ask follows "ireq" and a failed one is a broken connection |
| Dispatch.Locate | connection_demo.py:163-182 | rack and slot handling consumes input, only appends replies, and stops only with a failure |
| Dispatch.Finish | connection_demo.py:184-188 | `done` always stops the loop; it stops normally exactly when "ireq" went out and the distance was read, so a broken read after "ireq" is an abnormal end |
| Dispatch.Dispatch | connection_demo.py:148-188 | a handler only appends replies and consumes input, and only `done` ends the loop normally |
| Dispatch.Step | connection_demo.py:143-188 | every pass that goes on consumes input, so the loop cannot spin; a normal stop follows "ireq" |
| Dispatch.Run | connection_demo.py:143-191 | the loop only consumes input and never moves the product counter back (what it sends is stated by RunKeepsLabels, RunExtendsReplies and Session.DoneOnlyAfterRequest) |
| Dispatch.BrokenReadStops | connection_demo.py:145 | a failed read stops the loop at once with a broken connection and nothing sent |
| Dispatch.MaxProdAnswered | connection_demo.py:148-150 | `maxprod` is answered "15" without touching the product counter |
| Dispatch.ProductLabelled | connection_demo.py:152-156 | `product` is answered "ID_" + i and i goes up by one |
| Dispatch.TypeChosen | connection_demo.py:158-161 | `type` is answered with the chosen type, one of A, B, C, D |
| Dispatch.AnswerDelivered | connection_demo.py:149-161 | with a working socket every single answer goes out and is appended to the replies |
| Dispatch.AskAnswered | connection_demo.py:164-165 | asking sends "ireq" and returns the next message |
| Dispatch.LocateAnswered | connection_demo.py:163-182 | after "ireq", a known type gets its table entry and an unknown one stops the loop with that token |
| Dispatch.StepDispatches | connection_demo.py:145-148 | after a command is read, the pass is that command's handler on the rest of the input |
| Dispatch.DispatchOn | connection_demo.py:148-188 | `maxprod`, `type`, `rack`, `slot` and `done` each go to their own handler, and an unrecognised command is consumed with no answer |
| Dispatch.RackAnswered | connection_demo.py:163-170 | `rack` sends "ireq", then 1 for A and B and 2 for C and D; any other type stops the loop after "ireq" |
| Dispatch.SlotAnswered | connection_demo.py:172-182 | `slot` sends "ireq", then the address of the reported type; any other type stops the loop after "ireq" |
| Dispatch.DoneFinishes | connection_demo.py:184-188 | `done` sends "ireq", reads the distance and stops the loop with it |
| Dispatch.FinishAnswered | connection_demo.py:184-188 | after `done` is read, "ireq" goes out and the next message is the outcome that stops the loop |
| Dispatch.LateBreakStops | connection_demo.py:163-191 | a peer that disconnects while `rack`, `slot` or `done` waits for its second message ends the loop abnormally with a broken connection, right after "ireq" |
| Dispatch.UnknownIgnored | connection_demo.py:148-188 | a command outside the table is consumed and nothing is sent |
| Dispatch.ProductKeepsLabels | connection_demo.py:152-156 | a `product` pass keeps the labels sent equal to ID_1 … ID_(i-1) |
| Dispatch.DispatchKeepsLabels | connection_demo.py:148-188 | every handler keeps the labels sent equal to ID_1 … ID_(i-1) |
| Dispatch.StepKeepsLabels | connection_demo.py:143-188 | every pass of the loop keeps that invariant |
| Dispatch.RunKeepsLabels | connection_demo.py:142-191 | over any run of the loop the labels go out as ID_1, ID_2, … with no gap or repeat |
| Dispatch.RunExtendsReplies | connection_demo.py:143-191 | the loop only ever appends replies |
| Session.Handshake | connection_demo.py:72-76 | the handshake succeeds if and only if the first message is exactly READY; it consumes exactly that frame and sends nothing; it fails with NotReady when a different message arrives and with a broken connection when none does |
| Session.Configure | connection_demo.py:131-135 | configuration succeeds exactly when a prompt is read, whatever it says, and "4" is then sent in full; it consumes exactly that frame, and it can only fail with a broken connection |
| Session.Connect | connection_demo.py:128-193 | a run is raised exactly when the handshake or the configuration fails, and only raised runs close nothing; a raised run has sent nothing |
| Session.Close | connection_demo.py:189-193 | after `done` the run completes with the distance and closes once; after a caught failure it is abandoned and closes twice |
| Session.NotReadyRaises | connection_demo.py:75-76 | anything but READY first raises before configuration, with nothing sent or closed |
| Session.EarlyBreakRaises | connection_demo.py:72 | a connection broken before READY raises the same way |
| Session.ConfigBreakRaises | connection_demo.py:131-135 | a connection that breaks during configuration, after READY, raises with nothing recorded and no close |
| Session.ConfiguredFirst | connection_demo.py:131-135 | after READY and the prompt the first reply is "4" and the run reaches the loop and closes |
| Session.ReadyThenSpeed | connection_demo.py:131-135 | after READY the prompt is read, whatever it says, and the speed "4" is the first reply |
| Session.ConnectRuns | connection_demo.py:128-193 | once handshake and configuration succeed, the run is the closed command loop |
| Session.ConfiguredLabelled | connection_demo.py:134-142 | the loop starts with no label sent and i = 1 |
| Session.LabelsInSequence | connection_demo.py:142-156 | in every run the product labels sent are ID_1, ID_2, … in order, and i is one past the last |
| Session.DoneOnlyAfterRequest | connection_demo.py:184-188 | a loop that ends normally ended with "ireq" as the last reply |
| Session.DisconnectAbandons | connection_demo.py:189-191 | a peer that sends no complete message ends the loop abnormally with nothing more sent |
| Session.ScenarioSetup | connection_demo.py:128-135 | READY and a prompt lead to the loop with "4" sent |
| Session.ScenarioDone | connection_demo.py:184-188 | `done` then a distance ends the loop with that distance after "ireq" |
| Session.ScenarioProductDone | connection_demo.py:152-188 | `product` then `done` sends the next label, then "ireq" |
| Session.ScenarioLoop | connection_demo.py:148-188 | `maxprod`, `product`, `done` are answered 15, the label, ireq |
| Session.CompleteClosed | connection_demo.py:143-193 | that loop from i = 1 closes completed with replies 4, 15, ID_1, ireq |
| Session.ScenarioComplete | connection_demo.py:128-193 | READY, prompt, maxprod, product, done, 123.4 completes with 123.4 after 4, 15, ID_1, ireq, closing once |
| Session.LoopUnknownType | connection_demo.py:163-170 | `rack` followed by type E stops the loop after "ireq" with the unknown type |
| Session.UnknownTypeClosed | connection_demo.py:163-193 | that loop is abandoned and closes twice |
| Session.ScenarioUnknownType | connection_demo.py:128-193 | a whole run with type E is abandoned after 4 and ireq |
| Session.LoopDisconnect | connection_demo.py:99-113 | `product` split over two reads is still answered, and the empty read after it stops the loop |
| Session.DisconnectClosed | connection_demo.py:143-193 | that loop is abandoned with a broken connection and closes twice |
| Session.ScenarioDisconnect | connection_demo.py:128-193 | a whole run where the peer closes after `product` is abandoned after 4 and ID_1 |

## Left out

- Process launch and kill (`_launch_flexsim`, `_close_flexsim`): the model counts close calls and does nothing else.
- Socket setup and teardown (`socket`, `bind`, `listen`, `accept`, `_socket_end`): the connection is the list of chunks the peer sends plus the write-count oracle. Whether closing can fail (it binds the port again) is not modelled.
- Console output and the `verbose`/`visible` flags: they only print.
- The random number generator: `random.choice` is the parameter `pick`, indexed by the number of `type` commands answered so far.
- UTF-8 decoding and encoding: messages are compared as bytes. A reply that is not valid UTF-8 would raise in `.decode`, which is not modelled.
- The 2048-byte receive buffer: the chunks are given, of any length.
- Constructor fields and hard-coded paths: they hold no logic.
- A peer that never sends anything stalls the real program; in the model the chunk list is finite and running out of chunks is treated as the peer closing.
- The bare `except` also catches errors other than a broken connection or an unknown type (for example a decoding error); only those two are modelled.
- Sending.Transmit: a socket that reports more bytes than remain is allowed, as the code would accept it; exact delivery is proved only for a socket that reports between 1 and the remaining count (`Fits`).
- Dispatch.MaxProdAnswered: stated for a socket that accepts at least one byte per call (`Healthy`); a failing send is covered by Dispatch.Answer.
- Dispatch.ProductLabelled: stated for a healthy socket; on a failed send the counter is not increased (Dispatch.Answer).
- Dispatch.TypeChosen: stated for a healthy socket.
- Dispatch.AskAnswered: stated for a healthy socket.
- Dispatch.AnswerDelivered: stated for a healthy socket; a failing send is covered by Dispatch.Answer.
- Dispatch.FinishAnswered: stated for a healthy socket and a distance that arrives.
- Dispatch.LateBreakStops: stated for a healthy socket; a failed "ireq" send also ends the loop (Dispatch.Ask).
- Dispatch.LocateAnswered: stated for a healthy socket.
- Dispatch.RackAnswered: stated for a healthy socket and for a type reply that arrives.
- Dispatch.SlotAnswered: stated for a healthy socket and for a type reply that arrives.
- Dispatch.DoneFinishes: stated for a healthy socket and for a distance that arrives.
- Session.ConfiguredFirst: stated for a healthy socket and a prompt that arrives.
- Session.ReadyThenSpeed: stated for a healthy socket and a prompt that arrives.

=== FILE: channel.dfy ===
/** The connection as the command loop sees it: whole messages in, whole
    messages out, over one accepted socket. */
module Channel {
  import opened Wire
  import opened Framing
  import opened Sending

  /** The state of the one peer connection: the chunks the simulation has yet
      to deliver, how many socket send calls have been made, and the replies
      delivered so far, oldest first. */
  datatype Link = Link(pending: seq<seq<byte>>, calls: nat, replies: seq<seq<byte>>)

  /** A received message and the link after the read. */
  datatype Inbound = Inbound(message: seq<byte>, link: Link)

  /** Receive one framed message. */
  function Receive(l: Link): (r: Result<Inbound>)
    ensures r.Ok? <==> Recv(l.pending).Ok?
    ensures r.Ok? ==> r.value.message == Recv(l.pending).value.message
    ensures r.Ok? ==> r.value.link.pending == l.pending[Recv(l.pending).value.used..]
    ensures r.Ok? ==> |r.value.link.pending| < |l.pending|
    ensures r.Ok? ==> r.value.link.calls == l.calls && r.value.link.replies == l.replies
    ensures r.Err? ==> r.error == ConnectionBroken
  {
    match Recv(l.pending)
    case Err(e) => Err(e)
    case Ok(rd) => Ok(Inbound(rd.message, l.(pending := l.pending[rd.used..])))
  }

  /** Send one reply with the partial-write loop; on success it is logged. */
  function Send(l: Link, m: seq<byte>, write: nat -> nat): (r: Result<Link>)
    ensures r.Ok? ==> r.value.replies == l.replies + [m] && r.value.pending == l.pending
    ensures r.Ok? ==> r.value.calls >= l.calls
    ensures r.Err? ==> r.error == ConnectionBroken
    ensures (forall j :: l.calls <= j ==> write(j) > 0) ==> r.Ok?
    ensures r.Ok? <==> Transmit(m, write, l.calls, 0).Ok?
    ensures r.Ok? ==> r.value.calls == Transmit(m, write, l.calls, 0).value.nextCall
  {
    match Transmit(m, write, l.calls, 0)
    case Err(e) => Err(e)
    case Ok(s) => Ok(l.(calls := s.nextCall, replies := l.replies + [m]))
  }
}

=== FILE: commands.dfy ===
/** The command vocabulary of the simulation and the controller's fixed
    answers: the tokens, the product types and the rack/slot tables. */
module Commands {
  import opened Wire
  import opened Decimal

  /** The handshake token the simulation sends once connected. */
  const Ready: seq<byte> := Ascii("READY")
  /** The information request the controller sends before reading a value. */
  const InfoRequest: seq<byte> := Ascii("ireq")

  const MaxProdCmd: seq<byte> := Ascii("maxprod")
  const ProductCmd: seq<byte> := Ascii("product")
  const TypeCmd: seq<byte> := Ascii("type")
  const RackCmd: seq<byte> := Ascii("rack")
  const SlotCmd: seq<byte> := Ascii("slot")
  const DoneCmd: seq<byte> := Ascii("done")

  /** The commands the controller recognises; anything else is Other. */
  datatype Command = AskMaxProd | AskProduct | AskType | AskRack | AskSlot | AskDone | Other

  /** The token of each recognised command. */
  function Token(c: Command): seq<byte>
    requires c != Other
  {
    match c
    case AskMaxProd => MaxProdCmd
    case AskProduct => ProductCmd
    case AskType => TypeCmd
    case AskRack => RackCmd
    case AskSlot => SlotCmd
    case AskDone => DoneCmd
  }

  /** Exact, case-sensitive match of a message against the command tokens,
      tried in table order. */
  function Classify(m: seq<byte>): (c: Command)
    ensures c != Other ==> Token(c) == m
  {
    if m == MaxProdCmd then AskMaxProd
    else if m == ProductCmd then AskProduct
    else if m == TypeCmd then AskType
    else if m == RackCmd then AskRack
    else if m == SlotCmd then AskSlot
    else if m == DoneCmd then AskDone
    else Other
  }

  /** Every command token is recognised as its own command, and only the
      six tokens are recognised at all. */
  lemma ClassifyToken(c: Command, m: seq<byte>)
    ensures c != Other ==> Classify(Token(c)) == c
    ensures Classify(m) == Other <==> m !in {MaxProdCmd, ProductCmd, TypeCmd, RackCmd, SlotCmd, DoneCmd}
  {
    assert MaxProdCmd[0] == 109 && ProductCmd[0] == 112 && TypeCmd[0] == 116;
    assert RackCmd[0] == 114 && SlotCmd[0] == 115 && DoneCmd[0] == 100;
  }

  /** Simulation speed sent during configuration. */
  const SimSpeed: nat := 4
  /** Maximum number of products the simulation may create. */
  const MaxProd: nat := 15

  /** `str(MAX_PROD)` on the wire. */
  lemma MaxProdText()
    ensures Show(MaxProd) == Ascii("15")
  {
    assert Show(MaxProd) == Show(1) + [53];
  }

  /** The four product types the simulation may report. */
  datatype ProductType = A | B | C | D

  /** The reply to `type`: one of the four one-letter type names. */
  function TypeToken(t: ProductType): (r: seq<byte>)
    ensures |r| == 1 && r in {Ascii("A"), Ascii("B"), Ascii("C"), Ascii("D")}
  {
    match t
    case A => Ascii("A")
    case B => Ascii("B")
    case C => Ascii("C")
    case D => Ascii("D")
  }

  /** Key lookup in the rack/slot tables: a token that is not one of the four
      type names has no entry, which the source reports as a KeyError. */
  function Lookup(token: seq<byte>): (r: Result<ProductType>)
    ensures r.Ok? ==> TypeToken(r.value) == token
    ensures r.Ok? <==> exists t :: TypeToken(t) == token
    ensures r.Err? ==> r.error == UnknownProductType(token)
  {
    if token == Ascii("A") then Ok(A)
    else if token == Ascii("B") then Ok(B)
    else if token == Ascii("C") then Ok(C)
    else if token == Ascii("D") then Ok(D)
    else Err(UnknownProductType(token))
  }

  lemma OneIsNotTwo()
    ensures Ascii("1") != Ascii("2")
  {
    AsciiAt("1", 0);
    AsciiAt("2", 0);
  }

  /** Rack table: A and B are stored in rack 1, C and D in rack 2. */
  function Rack(t: ProductType): (r: seq<byte>)
    ensures |r| == 1
    ensures r == Ascii("1") <==> t == A || t == B
    ensures r == Ascii("2") <==> t == C || t == D
  {
    OneIsNotTwo();
    match t
    case A => Ascii("1")
    case B => Ascii("1")
    case C => Ascii("2")
    case D => Ascii("2")
  }

  /** Slot table: A and C go to slot 1, B and D to slot 2. */
  function Slot(t: ProductType): (r: seq<byte>)
    ensures |r| == 1
    ensures r == Ascii("1") <==> t == A || t == C
    ensures r == Ascii("2") <==> t == B || t == D
  {
    OneIsNotTwo();
    match t
    case A => Ascii("1")
    case B => Ascii("2")
    case C => Ascii("1")
    case D => Ascii("2")
  }

  /** Storage address answered to `slot`: "1-{rack}-{slot}-2-1". */
  function Address(t: ProductType): (a: seq<byte>)
    ensures |a| == 9
    ensures a[2..3] == Rack(t) && a[4..5] == Slot(t)
  {
    Ascii("1-") + Rack(t) + Ascii("-") + Slot(t) + Ascii("-2-1")
  }

  /** The four storage addresses in full. */
  lemma AddressTable()
    ensures Address(A) == Ascii("1-1-1-2-1")
    ensures Address(B) == Ascii("1-1-2-2-1")
    ensures Address(C) == Ascii("1-2-1-2-1")
    ensures Address(D) == Ascii("1-2-2-2-1")
  {
    AddressSpelled(A, "1", "1");
    assert "1-" + "1" + "-" + "1" + "-2-1" == "1-1-1-2-1";
    AddressSpelled(B, "1", "2");
    assert "1-" + "1" + "-" + "2" + "-2-1" == "1-1-2-2-1";
    AddressSpelled(C, "2", "1");
    assert "1-" + "2" + "-" + "1" + "-2-1" == "1-2-1-2-1";
    AddressSpelled(D, "2", "2");
    assert "1-" + "2" + "-" + "2" + "-2-1" == "1-2-2-2-1";
  }

  /** The address of a type whose rack and slot are spelled `rack` and `slot`. */
  lemma AddressSpelled(t: ProductType, rack: string, slot: string)
    requires Rack(t) == Ascii(rack) && Slot(t) == Ascii(slot)
    ensures Address(t) == Ascii("1-" + rack + "-" + slot + "-2-1")
  {
    AsciiAppend("1-", rack);
    AsciiAppend("1-" + rack, "-");
    AsciiAppend("1-" + rack + "-", slot);
    AsciiAppend("1-" + rack + "-" + slot, "-2-1");
  }

  /** The label answered to the n-th `product` command. */
  function ProductId(n: nat): (id: seq<byte>)
    ensures |id| >= 4 && id[..3] == Ascii("ID_") && id[3..] == Show(n)
  {
    Ascii("ID_") + Show(n)
  }

  predicate IsProductId(m: seq<byte>)
  {
    |m| >= 3 && m[..3] == Ascii("ID_")
  }

  /** Every type name is found in the tables. */
  lemma LookupTypeToken(t: ProductType)
    ensures Lookup(TypeToken(t)) == Ok(t)
  {
    AsciiAt("A", 0);
    AsciiAt("B", 0);
    AsciiAt("C", 0);
    AsciiAt("D", 0);
  }

  /** Each type has its own storage address, and the rack and slot tables
      together tell the four types apart. */
  lemma AddressInjective(t: ProductType, u: ProductType)
    ensures Address(t) == Address(u) <==> t == u
  {
    if Address(t) == Address(u) {
      assert Rack(t) == Address(t)[2..3] == Rack(u);
      assert Slot(t) == Address(t)[4..5] == Slot(u);
    }
  }

  /** Product labels carry their number: different numbers, different labels. */
  lemma ProductIdInjective(n: nat, m: nat)
    ensures ProductId(n) == ProductId(m) <==> n == m
  {
    if ProductId(n) == ProductId(m) {
      assert Show(n) == ProductId(n)[3..];
      assert Show(m) == ProductId(m)[3..];
      ShowInjective(n, m);
    }
  }

  /** The first product label reads "ID_1". */
  lemma FirstLabel()
    ensures ProductId(1) == Ascii("ID_1")
  {
    var l := ProductId(1);
    assert Show(1) == [49];
    assert l == Ascii("ID_") + [49];
    assert Ascii("ID_1")[1] == 68 && Ascii("ID_1")[2] == 95 && Ascii("ID_1")[3] == 49;
  }

  /** Product labels are recognisable by their "ID_" prefix, and no other
      reply the controller ever sends has that prefix. */
  lemma OnlyLabelsAreIds(n: nat, k: nat, t: ProductType)
    ensures IsProductId(ProductId(n))
    ensures !IsProductId(Show(k))
    ensures !IsProductId(InfoRequest)
    ensures !IsProductId(TypeToken(t))
    ensures !IsProductId(Rack(t))
    ensures !IsProductId(Address(t))
  {
    assert ProductId(n)[..3] == Ascii("ID_");
    var s := Show(k);
    if |s| >= 3 {
      assert s[..3][0] == s[0];
      assert IsDigit(s[0]);
    }
    assert InfoRequest[..3][0] == InfoRequest[0];
    assert Address(t)[..3][0] == Address(t)[0];
  }
}

=== FILE: decimal.dfy ===
/** Decimal text of natural numbers, as Python's `str` writes them. */
module Decimal {
  import opened Wire

  predicate IsDigit(b: byte)
  {
    48 <= b <= 57
  }

  /** The decimal digits of n, most significant first, with no leading zero. */
  function Show(n: nat): (s: seq<byte>)
    ensures |s| >= 1
    ensures forall i :: 0 <= i < |s| ==> IsDigit(s[i])
    ensures |s| > 1 ==> s[0] != 48
    ensures n < 10 <==> |s| == 1
  {
    if n < 10 then [(48 + n) as byte] else Show(n / 10) + [(48 + n % 10) as byte]
  }

  /** The number a string of decimal digits denotes. */
  function Value(s: seq<byte>): nat
    requires forall i :: 0 <= i < |s| ==> IsDigit(s[i])
  {
    if |s| == 0 then 0
    else
      assert IsDigit(s[|s| - 1]);
      Value(s[..|s| - 1]) * 10 + (s[|s| - 1] as int - 48)
  }

  /** Reading back what Show wrote gives the number again. */
  lemma {:induction false} ValueOfShow(n: nat)
    ensures Value(Show(n)) == n
  {
    if n >= 10 {
      ValueOfShow(n / 10);
      var s := Show(n);
      assert s[..|s| - 1] == Show(n / 10);
    }
  }

  /** Different numbers are written differently. */
  lemma ShowInjective(n: nat, m: nat)
    ensures Show(n) == Show(m) <==> n == m
  {
    if Show(n) == Show(m) {
      ValueOfShow(n);
      ValueOfShow(m);
    }
  }
}

=== FILE: dispatch.dfy ===
/** The command loop: after configuration the controller repeatedly reads a
    command from the simulation and answers it, until `done` completes or any
    step fails. A failure of any kind ends the loop. */
module Dispatch {
  import opened Wire
  import opened Framing
  import opened Channel
  import opened Commands
  import opened Decimal

  /** The loop state: the connection, the number the next product label
      will carry, and how many `type` answers have been chosen. */
  datatype State = State(link: Link, next: nat, picks: nat)

  /** How the loop ended: `done` delivered the travelled distance, or a
      step failed. */
  datatype End = Done(distance: seq<byte>) | Failed(error: Error)

  datatype Turn = Continue(state: State) | Stop(state: State, end: End)

  /** The socket accepts at least one byte on every call. */
  ghost predicate Healthy(write: nat -> nat)
  {
    forall j :: write(j) > 0
  }

  /** The last reply sent was the information request. */
  predicate AfterRequest(replies: seq<seq<byte>>)
  {
    |replies| > 0 && replies[|replies| - 1] == InfoRequest
  }

  /** Send one answer and carry on. */
  function Answer(s: State, m: seq<byte>, write: nat -> nat): (r: Turn)
    ensures r.state.next == s.next && r.state.picks == s.picks
    ensures r.state.link.pending == s.link.pending
    ensures s.link.replies <= r.state.link.replies
    ensures r.Continue? ==> r.state.link.replies == s.link.replies + [m]
    ensures r.Stop? ==> r.state == s && r.end == Failed(ConnectionBroken)
    ensures r.Stop? <==> Send(s.link, m, write).Err?
  {
    match Send(s.link, m, write)
    case Err(e) => Stop(s, Failed(e))
    case Ok(l) => Continue(s.(link := l))
  }

  /** Send the information request and read the simulation's reply. */
  function Ask(s: State, write: nat -> nat): (r: (State, Result<seq<byte>>))
    ensures r.0.next == s.next && r.0.picks == s.picks
    ensures |r.0.link.pending| <= |s.link.pending|
    ensures s.link.replies <= r.0.link.replies
    ensures r.1.Ok? ==> AfterRequest(r.0.link.replies)
    ensures r.1.Err? ==> r.1.error == ConnectionBroken
    ensures Send(s.link, InfoRequest, write).Err? ==> r.1.Err?
    ensures Send(s.link, InfoRequest, write).Ok? ==>
      && (r.1.Ok? <==> Recv(s.link.pending).Ok?)
      && (r.1.Ok? ==>
            r.1.value == Recv(s.link.pending).value.message
            && r.0.link.pending == s.link.pending[Recv(s.link.pending).value.used..])
  {
    match Send(s.link, InfoRequest, write)
    case Err(e) => (s, Err(e))
    case Ok(l) =>
      match Receive(l)
      case Err(e) => (s.(link := l), Err(e))
      case Ok(rx) => (s.(link := rx.link), Ok(rx.message))
  }

  /** `rack` and `slot`: ask for the product type, look it up, answer with
      the table entry. An unknown type ends the loop. */
  function Locate(s: State, write: nat -> nat, table: ProductType -> seq<byte>): (r: Turn)
    ensures r.state.next == s.next && r.state.picks == s.picks
    ensures |r.state.link.pending| <= |s.link.pending|
    ensures s.link.replies <= r.state.link.replies
    ensures r.Stop? ==> r.end.Failed?
  {
    var (s', reply) := Ask(s, write);
    match reply
    case Err(e) => Stop(s', Failed(e))
    case Ok(token) =>
      match Lookup(token)
      case Err(e) => Stop(s', Failed(e))
      case Ok(t) => Answer(s', table(t), write)
  }

  /** `done`: ask for the travelled distance and stop. */
  function Finish(s: State, write: nat -> nat): (r: Turn)
    ensures r.Stop? && r.state.next == s.next
    ensures s.link.replies <= r.state.link.replies
    ensures r.end.Done? ==> AfterRequest(r.state.link.replies)
    ensures r.end.Done? <==> Ask(s, write).1.Ok?
  {
    var (s', reply) := Ask(s, write);
    match reply
    case Err(e) => Stop(s', Failed(e))
    case Ok(distance) => Stop(s', Done(distance))
  }

  /** The command table. An unrecognised command gets no answer. */
  function Dispatch(s: State, cmd: seq<byte>, write: nat -> nat, pick: nat -> ProductType): (r: Turn)
    ensures |r.state.link.pending| <= |s.link.pending|
    ensures s.next <= r.state.next
    ensures s.link.replies <= r.state.link.replies
    ensures r.Stop? && r.end.Done? ==> cmd == DoneCmd && AfterRequest(r.state.link.replies)
  {
    match Classify(cmd)
    case AskMaxProd => Answer(s, Show(MaxProd), write)
    case AskProduct =>
      (match Answer(s, ProductId(s.next), write)
       case Continue(s') => Continue(s'.(next := s.next + 1))
       case Stop(s', e) => Stop(s', e))
    case AskType => Answer(s.(picks := s.picks + 1), TypeToken(pick(s.picks)), write)
    case AskRack => Locate(s, write, Rack)
    case AskSlot => Locate(s, write, Address)
    case AskDone => Finish(s, write)
    case Other => Continue(s)
  }

  /** One pass of the loop: read a command and handle it. Every pass that
      continues has consumed input, so the loop cannot spin. */
  function Step(s: State, write: nat -> nat, pick: nat -> ProductType): (r: Turn)
    ensures r.Continue? ==> |r.state.link.pending| < |s.link.pending|
    ensures |r.state.link.pending| <= |s.link.pending| && s.next <= r.state.next
    ensures s.link.replies <= r.state.link.replies
    ensures r.Stop? && r.end.Done? ==> AfterRequest(r.state.link.replies)
  {
    match Receive(s.link)
    case Err(e) => Stop(s, Failed(e))
    case Ok(rx) => Dispatch(s.(link := rx.link), rx.message, write, pick)
  }

  /** The whole loop, from `s` until it stops. It only consumes input and the
      product counter never goes back. */
  function Run(s: State, write: nat -> nat, pick: nat -> ProductType): (r: (State, End))
    ensures |r.0.link.pending| <= |s.link.pending| && s.next <= r.0.next
    decreases |s.link.pending|
  {
    match Step(s, write, pick)
    case Continue(s') => Run(s', write, pick)
    case Stop(s', e) => (s', e)
  }

  /*** Per-command behaviour ***/

  /** A read that fails stops the loop at once, with nothing sent. */
  lemma BrokenReadStops(s: State, write: nat -> nat, pick: nat -> ProductType)
    requires Recv(s.link.pending).Err?
    ensures Step(s, write, pick) == Stop(s, Failed(ConnectionBroken))
    ensures Run(s, write, pick) == (s, Failed(ConnectionBroken))
  {
  }

  /** `maxprod` is always answered with "15", however often it is asked. */
  lemma MaxProdAnswered(s: State, write: nat -> nat, pick: nat -> ProductType, k: nat)
    requires Healthy(write)
    requires Recv(s.link.pending) == Ok(Read(MaxProdCmd, k))
    ensures var r := Step(s, write, pick);
      && r.Continue?
      && r.state.link.replies == s.link.replies + [Ascii("15")]
      && r.state.link.pending == s.link.pending[k..]
      && r.state.next == s.next
  {
    var s1 := s.(link := s.link.(pending := s.link.pending[k..]));
    StepDispatches(s, write, pick, MaxProdCmd, k);
    ClassifyToken(AskMaxProd, MaxProdCmd);
    DispatchOn(s1, MaxProdCmd, write, pick);
    MaxProdText();
    AnswerDelivered(s1, Show(MaxProd), write);
  }

  /** `product` is answered with "ID_" and the current number, and the
      number then goes up by one. */
  lemma ProductLabelled(s: State, write: nat -> nat, pick: nat -> ProductType, k: nat)
    requires Healthy(write)
    requires Recv(s.link.pending) == Ok(Read(ProductCmd, k))
    ensures var r := Step(s, write, pick);
      && r.Continue?
      && r.state.link.replies == s.link.replies + [ProductId(s.next)]
      && r.state.link.pending == s.link.pending[k..]
      && r.state.next == s.next + 1
  {
    ClassifyToken(AskProduct, ProductCmd);
  }

  /** `type` is answered with one of the four type names, the one the
      chooser picked. */
  lemma TypeChosen(s: State, write: nat -> nat, pick: nat -> ProductType, k: nat)
    requires Healthy(write)
    requires Recv(s.link.pending) == Ok(Read(TypeCmd, k))
    ensures var r := Step(s, write, pick);
      && r.Continue?
      && r.state.link.replies == s.link.replies + [TypeToken(pick(s.picks))]
      && TypeToken(pick(s.picks)) in {Ascii("A"), Ascii("B"), Ascii("C"), Ascii("D")}
      && r.state.link.pending == s.link.pending[k..]
      && r.state.next == s.next
  {
    var s1 := s.(link := s.link.(pending := s.link.pending[k..]));
    StepDispatches(s, write, pick, TypeCmd, k);
    ClassifyToken(AskType, TypeCmd);
    DispatchOn(s1, TypeCmd, write, pick);
    AnswerDelivered(s1.(picks := s.picks + 1), TypeToken(pick(s.picks)), write);
  }

  /** With a working socket an answer always goes out. */
  lemma AnswerDelivered(s: State, m: seq<byte>, write: nat -> nat)
    requires Healthy(write)
    ensures Answer(s, m, write).Continue?
    ensures Answer(s, m, write).state.link.replies == s.link.replies + [m]
  {
  }

  /** With a working socket, asking sends "ireq" and returns the next message. */
  lemma AskAnswered(s: State, write: nat -> nat, token: seq<byte>, k: nat)
    requires Healthy(write)
    requires Recv(s.link.pending) == Ok(Read(token, k))
    ensures var (s', reply) := Ask(s, write);
      && reply == Ok(token)
      && s'.link.replies == s.link.replies + [InfoRequest]
      && s'.link.pending == s.link.pending[k..]
      && s'.next == s.next
  {
  }

  /** The two-step table answer shared by `rack` and `slot`. */
  lemma LocateAnswered(s: State, write: nat -> nat, table: ProductType -> seq<byte>, token: seq<byte>, k: nat)
    requires Healthy(write)
    requires Recv(s.link.pending) == Ok(Read(token, k))
    ensures var r := Locate(s, write, table);
      && r.state.next == s.next
      && r.state.link.pending == s.link.pending[k..]
      && (Lookup(token).Ok? ==>
            r.Continue? && r.state.link.replies == s.link.replies + [InfoRequest, table(Lookup(token).value)])
      && (Lookup(token).Err? ==>
            r == Stop(r.state, Failed(UnknownProductType(token)))
            && r.state.link.replies == s.link.replies + [InfoRequest])
  {
    AskAnswered(s, write, token, k);
    var (s', reply) := Ask(s, write);
    if Lookup(token).Ok? {
      var m := table(Lookup(token).value);
      assert s.link.replies + [InfoRequest] + [m] == s.link.replies + [InfoRequest, m];
    }
  }

  /** After the command has been read, the step is the command's handler. */
  lemma StepDispatches(s: State, write: nat -> nat, pick: nat -> ProductType, cmd: seq<byte>, k: nat)
    requires Recv(s.link.pending) == Ok(Read(cmd, k))
    ensures Step(s, write, pick) == Dispatch(s.(link := s.link.(pending := s.link.pending[k..])), cmd, write, pick)
  {
  }

  /** The handler each recognised command is sent to. */
  lemma DispatchOn(s: State, cmd: seq<byte>, write: nat -> nat, pick: nat -> ProductType)
    ensures Classify(cmd) == AskMaxProd ==> Dispatch(s, cmd, write, pick) == Answer(s, Show(MaxProd), write)
    ensures Classify(cmd) == AskType ==>
      Dispatch(s, cmd, write, pick) == Answer(s.(picks := s.picks + 1), TypeToken(pick(s.picks)), write)
    ensures Classify(cmd) == AskRack ==> Dispatch(s, cmd, write, pick) == Locate(s, write, Rack)
    ensures Classify(cmd) == AskSlot ==> Dispatch(s, cmd, write, pick) == Locate(s, write, Address)
    ensures Classify(cmd) == AskDone ==> Dispatch(s, cmd, write, pick) == Finish(s, write)
    ensures Classify(cmd) == Other ==> Dispatch(s, cmd, write, pick) == Continue(s)
  {
  }

  /** `rack`: "ireq" first, then the rack of the reported type, 1 for A and B,
      2 for C and D; any other type stops the loop after "ireq". */
  lemma RackAnswered(s: State, write: nat -> nat, pick: nat -> ProductType, k: nat, token: seq<byte>, k2: nat)
    requires Healthy(write)
    requires Recv(s.link.pending) == Ok(Read(RackCmd, k))
    requires Recv(s.link.pending[k..]) == Ok(Read(token, k2))
    ensures var r := Step(s, write, pick);
      && r.state.next == s.next
      && r.state.link.pending == s.link.pending[k..][k2..]
      && (token == Ascii("A") || token == Ascii("B") ==>
            r.Continue? && r.state.link.replies == s.link.replies + [InfoRequest, Ascii("1")])
      && (token == Ascii("C") || token == Ascii("D") ==>
            r.Continue? && r.state.link.replies == s.link.replies + [InfoRequest, Ascii("2")])
      && (Lookup(token).Err? ==>
            r == Stop(r.state, Failed(UnknownProductType(token)))
            && r.state.link.replies == s.link.replies + [InfoRequest])
  {
    var s1 := s.(link := s.link.(pending := s.link.pending[k..]));
    StepDispatches(s, write, pick, RackCmd, k);
    ClassifyToken(AskRack, RackCmd);
    DispatchOn(s1, RackCmd, write, pick);
    LocateAnswered(s1, write, Rack, token, k2);
    LookupTypeToken(A);
    LookupTypeToken(B);
    LookupTypeToken(C);
    LookupTypeToken(D);
  }

  /** `slot`: "ireq" first, then "1-{rack}-{slot}-2-1" for the reported type
      (spelled out per type by AddressTable); any other type stops the loop
      after "ireq". */
  lemma SlotAnswered(s: State, write: nat -> nat, pick: nat -> ProductType, k: nat, token: seq<byte>, k2: nat)
    requires Healthy(write)
    requires Recv(s.link.pending) == Ok(Read(SlotCmd, k))
    requires Recv(s.link.pending[k..]) == Ok(Read(token, k2))
    ensures var r := Step(s, write, pick);
      && r.state.next == s.next
      && r.state.link.pending == s.link.pending[k..][k2..]
      && (Lookup(token).Ok? ==>
            r.Continue?
            && r.state.link.replies == s.link.replies + [InfoRequest, Address(Lookup(token).value)])
      && (Lookup(token).Err? ==>
            r == Stop(r.state, Failed(UnknownProductType(token)))
            && r.state.link.replies == s.link.replies + [InfoRequest])
  {
    var s1 := s.(link := s.link.(pending := s.link.pending[k..]));
    StepDispatches(s, write, pick, SlotCmd, k);
    ClassifyToken(AskSlot, SlotCmd);
    DispatchOn(s1, SlotCmd, write, pick);
    LocateAnswered(s1, write, Address, token, k2);
  }

  /** `done`: "ireq", then the next message is the run's outcome and the
      loop stops. */
  lemma DoneFinishes(s: State, write: nat -> nat, pick: nat -> ProductType, k: nat, distance: seq<byte>, k2: nat)
    requires Healthy(write)
    requires Recv(s.link.pending) == Ok(Read(DoneCmd, k))
    requires Recv(s.link.pending[k..]) == Ok(Read(distance, k2))
    ensures var r := Step(s, write, pick);
      && r.Stop? && r.end == Done(distance)
      && r.state.link.replies == s.link.replies + [InfoRequest]
      && r.state.next == s.next
  {
    var s1 := s.(link := s.link.(pending := s.link.pending[k..]));
    StepDispatches(s, write, pick, DoneCmd, k);
    ClassifyToken(AskDone, DoneCmd);
    DispatchOn(s1, DoneCmd, write, pick);
    FinishAnswered(s1, write, distance, k2);
  }

  /** `done` after its command was read: "ireq" goes out and the reply is
      the outcome. */
  lemma FinishAnswered(s: State, write: nat -> nat, distance: seq<byte>, k: nat)
    requires Healthy(write)
    requires Recv(s.link.pending) == Ok(Read(distance, k))
    ensures Finish(s, write) == Stop(Ask(s, write).0, Done(distance))
    ensures Ask(s, write).0.link.replies == s.link.replies + [InfoRequest]
    ensures Ask(s, write).0.next == s.next
  {
    AskAnswered(s, write, distance, k);
  }

  /** A peer that disconnects while `rack`, `slot` or `done` waits for its
      second message ends the loop abnormally, right after "ireq". */
  lemma LateBreakStops(s: State, write: nat -> nat, pick: nat -> ProductType, cmd: seq<byte>, k: nat)
    requires Healthy(write)
    requires cmd == RackCmd || cmd == SlotCmd || cmd == DoneCmd
    requires Recv(s.link.pending) == Ok(Read(cmd, k))
    requires Recv(s.link.pending[k..]).Err?
    ensures var r := Step(s, write, pick);
      && r.Stop? && r.end == Failed(ConnectionBroken)
      && r.state.link.replies == s.link.replies + [InfoRequest]
      && r.state.next == s.next
  {
    var s1 := s.(link := s.link.(pending := s.link.pending[k..]));
    StepDispatches(s, write, pick, cmd, k);
    ClassifyToken(AskRack, cmd);
    ClassifyToken(AskSlot, cmd);
    ClassifyToken(AskDone, cmd);
  }

  /** A command outside the table is read and ignored: nothing is sent and
      the loop goes on. */
  lemma UnknownIgnored(s: State, write: nat -> nat, pick: nat -> ProductType, cmd: seq<byte>, k: nat)
    requires Recv(s.link.pending) == Ok(Read(cmd, k))
    requires cmd !in {MaxProdCmd, ProductCmd, TypeCmd, RackCmd, SlotCmd, DoneCmd}
    ensures Step(s, write, pick) == Continue(s.(link := s.link.(pending := s.link.pending[k..])))
  {
    ClassifyToken(Other, cmd);
  }

  /*** Product labels over a whole run ***/

  /** The product labels among the replies, in the order they were sent. */
  function Labels(replies: seq<seq<byte>>): (r: seq<seq<byte>>)
    ensures forall i :: 0 <= i < |r| ==> IsProductId(r[i])
  {
    if |replies| == 0 then []
    else
      var last := replies[|replies| - 1];
      Labels(replies[..|replies| - 1]) + (if IsProductId(last) then [last] else [])
  }

  /** The labels ID_1, ..., ID_n. */
  function Series(n: nat): (r: seq<seq<byte>>)
    ensures |r| == n
    ensures forall i :: 0 <= i < n ==> r[i] == ProductId(i + 1)
  {
    if n == 0 then [] else Series(n - 1) + [ProductId(n)]
  }

  /** The labels sent so far are ID_1, ID_2, ... up to the one before `next`. */
  ghost predicate Labelled(s: State)
  {
    s.next >= 1 && Labels(s.link.replies) == Series(s.next - 1)
  }

  lemma LabelsAppend(replies: seq<seq<byte>>, m: seq<byte>)
    ensures Labels(replies + [m]) == Labels(replies) + (if IsProductId(m) then [m] else [])
  {
    assert (replies + [m])[..|replies|] == replies;
  }

  /** Sending anything but a product label leaves the labels alone. */
  lemma AnswerKeepsLabels(s: State, m: seq<byte>, write: nat -> nat)
    requires Labelled(s) && !IsProductId(m)
    ensures Labelled(Answer(s, m, write).state)
  {
    LabelsAppend(s.link.replies, m);
  }

  lemma AskKeepsLabels(s: State, write: nat -> nat)
    requires Labelled(s)
    ensures Labelled(Ask(s, write).0)
  {
    OnlyLabelsAreIds(0, 0, A);
    LabelsAppend(s.link.replies, InfoRequest);
  }

  lemma LocateKeepsLabels(s: State, write: nat -> nat, table: ProductType -> seq<byte>)
    requires Labelled(s)
    requires forall t :: !IsProductId(table(t))
    ensures Labelled(Locate(s, write, table).state)
  {
    AskKeepsLabels(s, write);
    var (s', reply) := Ask(s, write);
    if reply.Ok? && Lookup(reply.value).Ok? {
      AnswerKeepsLabels(s', table(Lookup(reply.value).value), write);
    }
  }

  /** No table entry is a product label. */
  lemma TablesAreNotLabels()
    ensures forall t :: !IsProductId(Rack(t)) && !IsProductId(Address(t))
  {
    forall t: ProductType ensures !IsProductId(Rack(t)) && !IsProductId(Address(t)) {
      OnlyLabelsAreIds(0, 0, t);
    }
  }

  /** A product answer appends exactly the label for the current number and
      moves the number on. */
  lemma ProductKeepsLabels(s: State, write: nat -> nat, pick: nat -> ProductType)
    requires Labelled(s)
    ensures Labelled(Dispatch(s, ProductCmd, write, pick).state)
  {
    ClassifyToken(AskProduct, ProductCmd);
    var id := ProductId(s.next);
    var r := Answer(s, id, write);
    if r.Continue? {
      OnlyLabelsAreIds(s.next, 0, A);
      LabelsAppend(s.link.replies, id);
      assert Labels(r.state.link.replies) == Series(s.next);
      assert Dispatch(s, ProductCmd, write, pick).state == r.state.(next := s.next + 1);
    } else {
      assert Dispatch(s, ProductCmd, write, pick).state == s;
    }
  }

  /** Every handler keeps the labels in sequence. */
  lemma DispatchKeepsLabels(s: State, cmd: seq<byte>, write: nat -> nat, pick: nat -> ProductType)
    requires Labelled(s)
    ensures Labelled(Dispatch(s, cmd, write, pick).state)
  {
    DispatchOn(s, cmd, write, pick);
    match Classify(cmd)
    case AskMaxProd =>
      OnlyLabelsAreIds(0, MaxProd, A);
      AnswerKeepsLabels(s, Show(MaxProd), write);
    case AskProduct =>
      assert cmd == ProductCmd;
      ProductKeepsLabels(s, write, pick);
    case AskType =>
      OnlyLabelsAreIds(0, 0, pick(s.picks));
      AnswerKeepsLabels(s.(picks := s.picks + 1), TypeToken(pick(s.picks)), write);
    case AskRack =>
      TablesAreNotLabels();
      LocateKeepsLabels(s, write, Rack);
    case AskSlot =>
      TablesAreNotLabels();
      LocateKeepsLabels(s, write, Address);
    case AskDone => AskKeepsLabels(s, write);
    case Other =>
  }

  /** One pass keeps the labels in sequence. */
  lemma StepKeepsLabels(s: State, write: nat -> nat, pick: nat -> ProductType)
    requires Labelled(s)
    ensures Labelled(Step(s, write, pick).state)
  {
    match Receive(s.link)
    case Err(_) =>
    case Ok(rx) => DispatchKeepsLabels(s.(link := rx.link), rx.message, write, pick);
  }

  /** Over any run of the loop the product labels go out as ID_1, ID_2, ...
      with no gap and no repeat, and `next` is one past the last. */
  lemma {:induction false} RunKeepsLabels(s: State, write: nat -> nat, pick: nat -> ProductType)
    requires Labelled(s)
    ensures Labelled(Run(s, write, pick).0)
    decreases |s.link.pending|
  {
    StepKeepsLabels(s, write, pick);
    match Step(s, write, pick)
    case Continue(s') => RunKeepsLabels(s', write, pick);
    case Stop(_, _) =>
  }

  /** Replies are only ever appended: what was sent stays sent. */
  lemma {:induction false} RunExtendsReplies(s: State, write: nat -> nat, pick: nat -> ProductType)
    ensures s.link.replies <= Run(s, write, pick).0.link.replies
    decreases |s.link.pending|
  {
    match Step(s, write, pick)
    case Continue(s') => RunExtendsReplies(s', write, pick);
    case Stop(_, _) =>
  }
}

=== FILE: framing.dfy ===
/** Inbound framing: how one message is reassembled from the chunks that
    successive `recv` calls return. A message ends with the first chunk whose
    LAST byte is `!`; a `!` anywhere else in a chunk is ordinary data. */
module Framing {
  import opened Wire

  /** A message that was read, and how many chunks the read used up. */
  datatype Read = Read(message: seq<byte>, used: nat)

  /** The chunk ends the frame: its final byte is the terminator. */
  predicate Terminates(chunk: seq<byte>)
  {
    |chunk| > 0 && chunk[|chunk| - 1] == Bang
  }

  /** The chunk is frame data that does not end the frame. */
  predicate Carries(chunk: seq<byte>)
  {
    |chunk| > 0 && chunk[|chunk| - 1] != Bang
  }

  /** Reference description of where a frame ends: chunk k-1 is the first one
      that terminates, and every chunk before it is non-empty. */
  ghost predicate FrameAt(chunks: seq<seq<byte>>, k: int)
  {
    && 1 <= k <= |chunks|
    && (forall j :: 0 <= j < k - 1 ==> Carries(chunks[j]))
    && Terminates(chunks[k - 1])
  }

  /** The wire form of one message from the simulation. */
  function Frame(m: seq<byte>): (f: seq<byte>)
    ensures |f| == |m| + 1 && Terminates(f) && f[..|m|] == m
  {
    m + [Bang]
  }

  /** Reads chunks until one ends with `!`, drops that one byte and joins the
      rest. An empty chunk means the peer closed the connection; so does
      running out of chunks, after which every read would return nothing. */
  function Recv(chunks: seq<seq<byte>>): (r: Result<Read>)
    ensures r.Ok? ==> 1 <= r.value.used <= |chunks| && Terminates(chunks[r.value.used - 1])
    ensures r.Ok? ==> r.value.message + [Bang] == Concat(chunks[..r.value.used])
    ensures r.Err? ==> r.error == ConnectionBroken
    decreases |chunks|
  {
    if |chunks| == 0 then Err(ConnectionBroken)
    else if |chunks[0]| == 0 then Err(ConnectionBroken)
    else if chunks[0][|chunks[0]| - 1] == Bang then
      assert chunks[..1] == [chunks[0]];
      Ok(Read(chunks[0][..|chunks[0]| - 1], 1))
    else
      var tail := Recv(chunks[1..]);
      if tail.Err? then Err(tail.error)
      else
        var rest := tail.value;
        assert chunks[..rest.used + 1] == [chunks[0]] + chunks[1..][..rest.used];
        Ok(Read(chunks[0] + rest.message, rest.used + 1))
  }

  /** Recv stops at the first terminating chunk: every chunk it read before
      that one was non-empty and did not end the frame. */
  lemma {:induction false} RecvFrames(chunks: seq<seq<byte>>)
    ensures Recv(chunks).Ok? ==> FrameAt(chunks, Recv(chunks).value.used)
    decreases |chunks|
  {
    if |chunks| > 0 && Carries(chunks[0]) {
      RecvFrames(chunks[1..]);
      if Recv(chunks).Ok? {
        var k := Recv(chunks).value.used;
        forall j | 0 <= j < k - 1 ensures Carries(chunks[j]) {
          if j > 0 {
            assert chunks[j] == chunks[1..][j - 1];
          }
        }
      }
    }
  }

  /** Wherever a frame ends, Recv finds it. */
  lemma {:induction false} RecvFindsFrame(chunks: seq<seq<byte>>, k: int)
    requires FrameAt(chunks, k)
    ensures Recv(chunks).Ok? && Recv(chunks).value.used == k
  {
    if k > 1 {
      assert Carries(chunks[0]);
      assert FrameAt(chunks[1..], k - 1);
      RecvFindsFrame(chunks[1..], k - 1);
    }
  }

  /** Recv returns exactly the message that the reference description fixes:
      the bytes of all chunks up to the first terminating one, minus the `!`. */
  lemma RecvSpec(chunks: seq<seq<byte>>, m: seq<byte>, k: nat)
    ensures Recv(chunks) == Ok(Read(m, k))
        <==> FrameAt(chunks, k) && m + [Bang] == Concat(chunks[..k])
  {
    RecvFrames(chunks);
    if FrameAt(chunks, k) && m + [Bang] == Concat(chunks[..k]) {
      RecvFindsFrame(chunks, k);
      var r := Recv(chunks).value;
      assert r.message + [Bang] == m + [Bang];
      assert r.message == (r.message + [Bang])[..|r.message|];
      assert m == (m + [Bang])[..|m|];
    }
  }

  /** Recv fails exactly when no chunk ends a frame before an empty chunk
      (or the end of the input) is reached. */
  lemma RecvBrokenSpec(chunks: seq<seq<byte>>)
    ensures Recv(chunks).Err? <==> forall k :: !FrameAt(chunks, k)
  {
    RecvFrames(chunks);
    if k :| FrameAt(chunks, k) {
      RecvFindsFrame(chunks, k);
    }
  }

  /** A zero-length read before any terminating chunk breaks the connection:
      no message is returned. */
  lemma {:induction false} EmptyReadBreaks(chunks: seq<seq<byte>>, i: int)
    requires 0 <= i < |chunks| && chunks[i] == []
    requires forall j :: 0 <= j < i ==> !Terminates(chunks[j])
    ensures Recv(chunks) == Err(ConnectionBroken)
  {
    if i > 0 && |chunks[0]| > 0 {
      assert !Terminates(chunks[0]);
      EmptyReadBreaks(chunks[1..], i - 1);
    }
  }

  /** A message framed by the simulation comes back unchanged when the whole
      frame arrives in one read, whatever follows it on the wire and even if
      it contains `!` itself. Split over several reads, a frame with an inner
      `!` may end early; see ChunkingInvariance and InnerBangKept. */
  lemma FrameRoundTrip(m: seq<byte>, rest: seq<seq<byte>>)
    ensures Recv([Frame(m)] + rest) == Ok(Read(m, 1))
  {
    var chunks := [Frame(m)] + rest;
    assert chunks[0] == m + [Bang];
    assert chunks[0][..|chunks[0]| - 1] == m;
  }

  /** Chunking invariance: however the frame of a `!`-free message is split
      into non-empty reads, Recv returns the message and consumes exactly
      those reads, leaving what follows for the next message. */
  lemma {:induction false} ChunkingInvariance(x: seq<byte>, chunks: seq<seq<byte>>, rest: seq<seq<byte>>)
    requires Bang !in x
    requires forall j :: 0 <= j < |chunks| ==> |chunks[j]| > 0
    requires Concat(chunks) == x + [Bang]
    ensures Recv(chunks + rest) == Ok(Read(x, |chunks|))
  {
    assert |chunks| > 0;
    var all := chunks + rest;
    var c := chunks[0];
    assert all[0] == c;
    if |chunks| == 1 {
      assert Concat(chunks) == c + Concat(chunks[1..]);
      assert Concat(chunks[1..]) == [];
      assert c == x + [Bang];
      assert c[..|c| - 1] == x;
    } else {
      var tail := chunks[1..];
      assert Concat(chunks) == c + Concat(tail);
      ConcatLength(tail);
      assert |c| <= |x|;
      assert c == x[..|c|] by {
        assert c == (x + [Bang])[..|c|];
      }
      assert c[|c| - 1] == x[|c| - 1];
      assert c[|c| - 1] != Bang;
      var x' := x[|c|..];
      assert x == c + x';
      assert Concat(tail) == x' + [Bang];
      assert Bang !in x' by {
        forall i | 0 <= i < |x'| ensures x'[i] != Bang {
          assert x'[i] == x[|c| + i];
        }
      }
      ChunkingInvariance(x', tail, rest);
      assert all[1..] == tail + rest;
    }
  }

  /** Only the final byte of a chunk is inspected: a `!` inside a chunk, and
      every byte after it, is kept as part of the message. */
  lemma InnerBangKept(a: seq<byte>, b: seq<byte>, c: seq<byte>)
    requires Carries(b) && Terminates(c)
    ensures Recv([a + [Bang] + b, c]) == Ok(Read(a + [Bang] + b + c[..|c| - 1], 2))
  {
    var chunks := [a + [Bang] + b, c];
    var first := a + [Bang] + b;
    assert first[|first| - 1] == b[|b| - 1];
    assert chunks[1..] == [c];
    assert Recv(chunks[1..]) == Ok(Read(c[..|c| - 1], 1));
  }
}

=== FILE: sending.dfy ===
/** Outbound sending: the partial-write loop that pushes one message into the
    socket. The socket is an oracle `write` from the number of the call to
    the count of bytes that call reports as sent. */
module Sending {
  import opened Wire

  /** A completed send: the number of the next unused socket call and the
      final value of the running byte total. */
  datatype Sent = Sent(nextCall: nat, total: nat)

  /** The loop as a function: starting at socket call `call` with `total`
      bytes already out, keep offering the rest of `msg` until the total
      reaches its length; a call that reports 0 bytes breaks the connection. */
  function Transmit(msg: seq<byte>, write: nat -> nat, call: nat, total: nat): (r: Result<Sent>)
    ensures r.Ok? ==> r.value.nextCall >= call && r.value.total >= |msg| && r.value.total >= total
    ensures r.Err? ==> r.error == ConnectionBroken
    ensures r.Err? ==>
      exists j :: call <= j < call + (|msg| - total) && write(j) == 0 && forall i :: call <= i < j ==> write(i) > 0
    decreases |msg| - total
  {
    if total >= |msg| then Ok(Sent(call, total))
    else if write(call) == 0 then Err(ConnectionBroken)
    else Transmit(msg, write, call + 1, total + write(call))
  }

  /** The socket behaves as a socket must: each call reports between 1 and
      the number of bytes still to send, until the whole message is out. */
  ghost predicate Fits(msg: seq<byte>, write: nat -> nat, call: nat, total: nat)
    decreases |msg| - total
  {
    total >= |msg|
    || (0 < write(call) <= |msg| - total && Fits(msg, write, call + 1, total + write(call)))
  }

  /** With a well-behaved socket the running total ends exactly at the
      message length. */
  lemma {:induction false} TransmitExact(msg: seq<byte>, write: nat -> nat, call: nat, total: nat)
    requires total <= |msg| && Fits(msg, write, call, total)
    ensures Transmit(msg, write, call, total).Ok?
    ensures Transmit(msg, write, call, total).value.total == |msg|
    decreases |msg| - total
  {
    if total < |msg| {
      TransmitExact(msg, write, call + 1, total + write(call));
    }
  }

  /** A call that reports 0 bytes while the message is unfinished raises
      "Socket connection broken", at whatever point of the loop it comes. */
  lemma ZeroWriteBreaks(msg: seq<byte>, write: nat -> nat, call: nat, total: nat)
    requires total < |msg| && write(call) == 0
    ensures Transmit(msg, write, call, total) == Err(ConnectionBroken)
  {
  }

  /** The whole-message case of TransmitExact. */
  lemma ExactWhenFits(msg: seq<byte>, write: nat -> nat, first: nat)
    ensures Fits(msg, write, first, 0) ==>
      Transmit(msg, write, first, 0).Ok? && Transmit(msg, write, first, 0).value.total == |msg|
  {
    if Fits(msg, write, first, 0) {
      TransmitExact(msg, write, first, 0);
    }
  }

  /** The part of `msg` below byte `n`, clamped to the message. */
  function Upto(msg: seq<byte>, n: nat): seq<byte>
  {
    if n <= |msg| then msg[..n] else msg
  }

  /** Appending what one call took extends the delivered prefix. */
  lemma SliceExtends(msg: seq<byte>, slices: seq<seq<byte>>, total: nat, upto: nat)
    requires total <= upto <= |msg|
    requires Concat(slices) == msg[..total]
    ensures Concat(slices + [msg[total..upto]]) == msg[..upto]
  {
    var slice := msg[total..upto];
    ConcatAppend(slices, [slice]);
    assert Concat([slice]) == slice + Concat([]);
    assert msg[..total] + slice == msg[..upto];
  }

  /** One pass of the send loop: the call takes `sent` bytes, at most what is
      left of the message, and the loop goes on where `Transmit` goes on. */
  lemma SendStep(msg: seq<byte>, write: nat -> nat, call: nat, total: nat, slices: seq<seq<byte>>, upto: nat)
    requires total < |msg| && write(call) > 0
    requires upto == if total + write(call) <= |msg| then total + write(call) else |msg|
    requires Concat(slices) == Upto(msg, total)
    ensures Transmit(msg, write, call, total) == Transmit(msg, write, call + 1, total + write(call))
    ensures Concat(slices + [msg[total..upto]]) == Upto(msg, total + write(call))
    ensures |msg[total..upto]| > 0
  {
    SliceExtends(msg, slices, total, upto);
  }

  /** The send loop itself. Every call is offered `msg[totalsent:]`; the
      returned slices are what each call took, in order. */
  method SocketSend(msg: seq<byte>, write: nat -> nat, first: nat)
    returns (r: Result<Sent>, slices: seq<seq<byte>>)
    ensures r == Transmit(msg, write, first, 0)
    ensures r.Ok? ==> Concat(slices) == msg
    ensures r.Ok? ==> |slices| == r.value.nextCall - first
    ensures forall j :: 0 <= j < |slices| ==> |slices[j]| > 0
    ensures Fits(msg, write, first, 0) ==> r.Ok? && r.value.total == |msg|
  {
    var totalsent: nat := 0;
    var call := first;
    slices := [];
    while totalsent < |msg|
      invariant call >= first && |slices| == call - first
      invariant Transmit(msg, write, call, totalsent) == Transmit(msg, write, first, 0)
      invariant Concat(slices) == Upto(msg, totalsent)
      invariant forall j :: 0 <= j < |slices| ==> |slices[j]| > 0
      decreases |msg| - totalsent
    {
      var sent := write(call);
      if sent == 0 {
        ZeroWriteBreaks(msg, write, call, totalsent);
        r := Err(ConnectionBroken);
        ExactWhenFits(msg, write, first);
        return;
      }
      var upto := if totalsent + sent <= |msg| then totalsent + sent else |msg|;
      SendStep(msg, write, call, totalsent, slices, upto);
      slices := slices + [msg[totalsent..upto]];
      totalsent := totalsent + sent;
      call := call + 1;
    }
    r := Ok(Sent(call, totalsent));
    ExactWhenFits(msg, write, first);
  }
}

=== FILE: session.dfy ===
/** One complete run as the controller drives it: wait for READY, answer the
    configuration prompt with the simulation speed, then serve commands
    until the loop ends, and close the connection. */
module Session {
  import opened Wire
  import opened Framing
  import opened Channel
  import opened Commands
  import opened Decimal
  import opened Dispatch
  import opened Sending

  /** How a run ended.
      - Completed: `done` was served; the distance is the simulation's last message.
      - Abandoned: the command loop caught a failure, closed the connection in
        its handler, and the close after the loop ran as well.
      - Raised: a failure during handshake or configuration, which is not caught. */
  datatype Outcome =
    | Completed(distance: seq<byte>)
    | Abandoned(error: Error)
    | Raised(error: Error)

  /** What a run leaves behind: its outcome, every reply delivered, the number
      the next product label would carry, and how many times the connection
      and simulation were closed. */
  datatype Report = Report(outcome: Outcome, replies: seq<seq<byte>>, next: nat, closes: nat)

  /** The READY check after the connection is accepted. */
  function Handshake(l: Link): (r: Result<Link>)
    ensures r.Ok? ==> r.value.replies == l.replies && r.value.calls == l.calls
    ensures r.Ok? <==> Recv(l.pending).Ok? && Recv(l.pending).value.message == Ready
    ensures r.Ok? ==> r.value.pending == l.pending[Recv(l.pending).value.used..]
    ensures r.Err? ==> r.error == if Recv(l.pending).Ok? then NotReady else ConnectionBroken
  {
    match Receive(l)
    case Err(e) => Err(e)
    case Ok(rx) => if rx.message == Ready then Ok(rx.link) else Err(NotReady)
  }

  /** Configuration: read the simulation's prompt, whatever it says, and
      send the simulation speed. */
  function Configure(l: Link, write: nat -> nat): (r: Result<Link>)
    ensures r.Ok? ==> r.value.replies == l.replies + [Ascii("4")]
    ensures r.Ok? ==> Recv(l.pending).Ok? && r.value.pending == l.pending[Recv(l.pending).value.used..]
    ensures Recv(l.pending).Ok? && (forall j :: l.calls <= j ==> write(j) > 0) ==> r.Ok?
    ensures r.Ok? <==> Recv(l.pending).Ok? && Transmit(Show(SimSpeed), write, l.calls, 0).Ok?
    ensures r.Err? ==> r.error == ConnectionBroken
  {
    assert Show(SimSpeed) == Ascii("4");
    match Receive(l)
    case Err(e) => Err(e)
    case Ok(rx) => Send(rx.link, Show(SimSpeed), write)
  }

  /** A whole run over the chunks the simulation sends, the socket's write
      counts and the chooser for `type` answers. */
  function Connect(inbound: seq<seq<byte>>, write: nat -> nat, pick: nat -> ProductType): (r: Report)
    ensures r.closes == 0 <==> r.outcome.Raised?
    ensures r.outcome.Raised? <==>
      Handshake(Link(inbound, 0, [])).Err? || Configure(Handshake(Link(inbound, 0, [])).value, write).Err?
    ensures r.outcome.Raised? ==> r.replies == [] && r.next == 1
  {
    match Handshake(Link(inbound, 0, []))
    case Err(e) => Report(Raised(e), [], 1, 0)
    case Ok(l1) =>
      match Configure(l1, write)
      case Err(e) => Report(Raised(e), [], 1, 0)
      case Ok(l2) => Close(Run(State(l2, 1, 0), write, pick))
  }

  /** The report of a run whose command loop has ended. The connection is
      closed after the loop in every case; a failure was already closed once
      by the handler that caught it. */
  function Close(loop: (State, End)): (r: Report)
    ensures r.replies == loop.0.link.replies && r.next == loop.0.next
    ensures loop.1.Done? ==> r.outcome == Completed(loop.1.distance) && r.closes == 1
    ensures loop.1.Failed? ==> r.outcome == Abandoned(loop.1.error) && r.closes == 2
  {
    var (last, end) := loop;
    match end
    case Done(d) => Report(Completed(d), last.link.replies, last.next, 1)
    case Failed(e) => Report(Abandoned(e), last.link.replies, last.next, 2)
  }

  /** Anything but READY as the first message fails the run before the
      configuration exchange: nothing is sent and nothing is closed. */
  lemma NotReadyRaises(inbound: seq<seq<byte>>, write: nat -> nat, pick: nat -> ProductType)
    requires Recv(inbound).Ok? && Recv(inbound).value.message != Ready
    ensures Connect(inbound, write, pick) == Report(Raised(NotReady), [], 1, 0)
  {
  }

  /** A connection that breaks before READY arrives fails the same way. */
  lemma EarlyBreakRaises(inbound: seq<seq<byte>>, write: nat -> nat, pick: nat -> ProductType)
    requires Recv(inbound).Err?
    ensures Connect(inbound, write, pick) == Report(Raised(ConnectionBroken), [], 1, 0)
  {
  }

  /** A connection that breaks during configuration, after READY, is not
      caught either: the run raises with nothing recorded and no close. */
  lemma ConfigBreakRaises(inbound: seq<seq<byte>>, write: nat -> nat, pick: nat -> ProductType, l1: Link)
    requires Handshake(Link(inbound, 0, [])) == Ok(l1)
    requires Configure(l1, write).Err?
    ensures Connect(inbound, write, pick) == Report(Raised(ConnectionBroken), [], 1, 0)
  {
  }

  /** After READY and the prompt, the first reply is always the speed "4",
      and from then on the run ends in the command loop and is closed. */
  lemma ConfiguredFirst(inbound: seq<seq<byte>>, write: nat -> nat, pick: nat -> ProductType, k: nat)
    requires Healthy(write)
    requires Recv(inbound) == Ok(Read(Ready, k))
    requires Recv(inbound[k..]).Ok?
    ensures var r := Connect(inbound, write, pick);
      && !r.outcome.Raised? && r.closes >= 1
      && |r.replies| >= 1 && r.replies[0] == Ascii("4")
  {
    ReadyThenSpeed(inbound, write, k);
    var l2 := Configure(Link(inbound[k..], 0, []), write).value;
    ConnectRuns(inbound, write, pick, Link(inbound[k..], 0, []), l2);
    RunExtendsReplies(State(l2, 1, 0), write, pick);
  }

  /** Once the handshake and the configuration succeed, the run is the
      closed command loop. */
  lemma ConnectRuns(inbound: seq<seq<byte>>, write: nat -> nat, pick: nat -> ProductType, l1: Link, l2: Link)
    requires Handshake(Link(inbound, 0, [])) == Ok(l1)
    requires Configure(l1, write) == Ok(l2)
    ensures Connect(inbound, write, pick) == Close(Run(State(l2, 1, 0), write, pick))
  {
  }

  /** The setup part of ConfiguredFirst: READY is accepted and the speed
      goes out as the first reply. */
  lemma ReadyThenSpeed(inbound: seq<seq<byte>>, write: nat -> nat, k: nat)
    requires Healthy(write)
    requires Recv(inbound) == Ok(Read(Ready, k))
    requires Recv(inbound[k..]).Ok?
    ensures Handshake(Link(inbound, 0, [])) == Ok(Link(inbound[k..], 0, []))
    ensures Configure(Link(inbound[k..], 0, []), write).Ok?
    ensures Configure(Link(inbound[k..], 0, []), write).value.replies == [Ascii("4")]
  {
    var l1 := Link(inbound[k..], 0, []);
    assert Configure(l1, write).Ok?;
  }

  /** Right after configuration no label has been sent and the first
      product will be ID_1. */
  lemma ConfiguredLabelled(l: Link)
    requires l.replies == [Ascii("4")]
    ensures Labelled(State(l, 1, 0))
  {
    assert l.replies == [] + [Ascii("4")];
    LabelsAppend([], Ascii("4"));
    OnlyLabelsAreIds(0, SimSpeed, A);
    assert Show(SimSpeed) == Ascii("4");
  }

  /** In every run, the product labels sent are ID_1, ID_2, ... in order with
      no gap or repeat, and `next` is one past the last label sent. */
  lemma LabelsInSequence(inbound: seq<seq<byte>>, write: nat -> nat, pick: nat -> ProductType)
    ensures var r := Connect(inbound, write, pick);
      r.next >= 1 && Labels(r.replies) == Series(r.next - 1)
  {
    var h := Handshake(Link(inbound, 0, []));
    if h.Ok? {
      var c := Configure(h.value, write);
      if c.Ok? {
        var s := State(c.value, 1, 0);
        ConfiguredLabelled(c.value);
        RunKeepsLabels(s, write, pick);
        assert Connect(inbound, write, pick) == Close(Run(s, write, pick));
      }
    }
  }

  /** A run completes only through `done`: the last reply is then "ireq". */
  lemma {:induction false} DoneOnlyAfterRequest(s: State, write: nat -> nat, pick: nat -> ProductType)
    ensures Run(s, write, pick).1.Done? ==> AfterRequest(Run(s, write, pick).0.link.replies)
    decreases |s.link.pending|
  {
    match Step(s, write, pick)
    case Continue(s') => DoneOnlyAfterRequest(s', write, pick);
    case Stop(_, _) =>
  }

  /** A peer that stops sending whole messages, by closing or by an empty
      read, ends the command loop abnormally with nothing more sent. */
  lemma DisconnectAbandons(s: State, write: nat -> nat, pick: nat -> ProductType)
    requires forall k :: !FrameAt(s.link.pending, k)
    ensures Run(s, write, pick) == (s, Failed(ConnectionBroken))
  {
    RecvBrokenSpec(s.link.pending);
    BrokenReadStops(s, write, pick);
  }

  /*** Scenarios ***/

  lemma AppendTwo<T>(r: seq<T>, a: T, b: T)
    ensures r + [a] + [b] == r + [a, b]
  {
  }

  lemma AppendThree<T>(r: seq<T>, a: T, b: T, c: T)
    ensures r + [a] + [b] + [c] == r + [a, b, c]
  {
  }

  /** The slowest socket that still works: one byte per call, so every
      reply goes out through the partial-write loop. */
  function OneByte(j: nat): nat { 1 }

  /** `done` followed by the distance ends the loop with that distance. */
  lemma ScenarioDone(s: State, pick: nat -> ProductType, d: seq<byte>)
    requires s.link.pending == [Frame(DoneCmd), Frame(d)]
    ensures Run(s, OneByte, pick).1 == Done(d)
    ensures Run(s, OneByte, pick).0.link.replies == s.link.replies + [InfoRequest]
    ensures Run(s, OneByte, pick).0.next == s.next
  {
    var f := s.link.pending;
    assert f == [Frame(DoneCmd)] + [Frame(d)];
    FrameRoundTrip(DoneCmd, [Frame(d)]);
    assert f[1..] == [Frame(d)] + [];
    FrameRoundTrip(d, []);
    DoneFinishes(s, OneByte, pick, 1, d, 1);
  }

  /** `product`, then `done`: the next label goes out before the loop ends. */
  lemma ScenarioProductDone(s: State, pick: nat -> ProductType, d: seq<byte>)
    requires s.link.pending == [Frame(ProductCmd), Frame(DoneCmd), Frame(d)]
    ensures Run(s, OneByte, pick).1 == Done(d)
    ensures Run(s, OneByte, pick).0.link.replies == s.link.replies + [ProductId(s.next), InfoRequest]
    ensures Run(s, OneByte, pick).0.next == s.next + 1
  {
    var f := s.link.pending;
    assert f == [Frame(ProductCmd)] + f[1..];
    FrameRoundTrip(ProductCmd, f[1..]);
    ProductLabelled(s, OneByte, pick, 1);
    var s1 := Step(s, OneByte, pick).state;
    assert s1.link.pending == [Frame(DoneCmd), Frame(d)];
    ScenarioDone(s1, pick, d);
    assert Run(s, OneByte, pick) == Run(s1, OneByte, pick);
    AppendTwo(s.link.replies, ProductId(s.next), InfoRequest);
  }

  /** The loop part of the scenario below: maxprod, product, done, then the
      distance. */
  lemma ScenarioLoop(s: State, pick: nat -> ProductType, d: seq<byte>)
    requires s.link.pending == [Frame(MaxProdCmd), Frame(ProductCmd), Frame(DoneCmd), Frame(d)]
    ensures Run(s, OneByte, pick).1 == Done(d)
    ensures Run(s, OneByte, pick).0.link.replies == s.link.replies + [Ascii("15"), ProductId(s.next), InfoRequest]
    ensures Run(s, OneByte, pick).0.next == s.next + 1
  {
    var f := s.link.pending;
    assert f == [Frame(MaxProdCmd)] + f[1..];
    FrameRoundTrip(MaxProdCmd, f[1..]);
    MaxProdAnswered(s, OneByte, pick, 1);
    var s1 := Step(s, OneByte, pick).state;
    assert s1.link.pending == [Frame(ProductCmd), Frame(DoneCmd), Frame(d)];
    ScenarioProductDone(s1, pick, d);
    assert Run(s, OneByte, pick) == Run(s1, OneByte, pick);
    AppendThree(s.link.replies, Ascii("15"), ProductId(s.next), InfoRequest);
  }

  /** READY and a prompt, answered with "4", then the command loop runs on
      the rest of the input. */
  lemma ScenarioSetup(rest: seq<seq<byte>>, pick: nat -> ProductType)
    ensures Connect([Frame(Ready), Frame(Ascii("speed?"))] + rest, OneByte, pick)
         == Close(Run(State(Link(rest, 1, [Ascii("4")]), 1, 0), OneByte, pick))
  {
    var f := [Frame(Ready), Frame(Ascii("speed?"))] + rest;
    var l1 := Link(f[1..], 0, []);
    assert Handshake(Link(f, 0, [])) == Ok(l1) by {
      assert f == [Frame(Ready)] + f[1..];
      FrameRoundTrip(Ready, f[1..]);
    }
    assert f[1..] == [Frame(Ascii("speed?"))] + rest;
    FrameRoundTrip(Ascii("speed?"), rest);
    assert f[1..][1..] == rest;
    assert Transmit(Show(SimSpeed), OneByte, 0, 0) == Ok(Sent(1, 1));
    assert Show(SimSpeed) == Ascii("4");
    assert [] + [Show(SimSpeed)] == [Ascii("4")];
    assert Configure(l1, OneByte) == Ok(Link(rest, 1, [Ascii("4")]));
  }

  /** The command loop of the scenario below, and the report it closes with. */
  lemma CompleteClosed(rest: seq<seq<byte>>, pick: nat -> ProductType)
    requires rest == [Frame(MaxProdCmd), Frame(ProductCmd), Frame(DoneCmd), Frame(Ascii("123.4"))]
    ensures Close(Run(State(Link(rest, 1, [Ascii("4")]), 1, 0), OneByte, pick))
      == Report(Completed(Ascii("123.4")), [Ascii("4"), Ascii("15"), Ascii("ID_1"), Ascii("ireq")], 2, 1)
  {
    var s := State(Link(rest, 1, [Ascii("4")]), 1, 0);
    ScenarioLoop(s, pick, Ascii("123.4"));
    var loop := Run(s, OneByte, pick);
    assert loop.0.link.replies == [Ascii("4"), Ascii("15"), ProductId(1), InfoRequest];
    FirstLabel();
  }

  /** READY, a prompt, maxprod, product, done, 123.4: the controller answers
      4, 15, ID_1 and ireq, and the run completes with outcome 123.4. */
  lemma ScenarioComplete(inbound: seq<seq<byte>>, pick: nat -> ProductType)
    requires inbound == [Frame(Ready), Frame(Ascii("speed?")),
                         Frame(MaxProdCmd), Frame(ProductCmd), Frame(DoneCmd), Frame(Ascii("123.4"))]
    ensures Connect(inbound, OneByte, pick)
      == Report(Completed(Ascii("123.4")), [Ascii("4"), Ascii("15"), Ascii("ID_1"), Ascii("ireq")], 2, 1)
  {
    var rest := [Frame(MaxProdCmd), Frame(ProductCmd), Frame(DoneCmd), Frame(Ascii("123.4"))];
    assert inbound == [Frame(Ready), Frame(Ascii("speed?"))] + rest;
    ScenarioSetup(rest, pick);
    CompleteClosed(rest, pick);
  }

  /** The loop part of the next scenario: `rack`, then an unknown type. */
  lemma LoopUnknownType(s: State, pick: nat -> ProductType)
    requires s.link.pending == [Frame(RackCmd), Frame(Ascii("E"))]
    ensures Run(s, OneByte, pick).1 == Failed(UnknownProductType(Ascii("E")))
    ensures Run(s, OneByte, pick).0.link.replies == s.link.replies + [InfoRequest]
    ensures Run(s, OneByte, pick).0.next == s.next
  {
    var f := s.link.pending;
    assert f == [Frame(RackCmd)] + [Frame(Ascii("E"))];
    FrameRoundTrip(RackCmd, [Frame(Ascii("E"))]);
    assert f[1..] == [Frame(Ascii("E"))] + [];
    FrameRoundTrip(Ascii("E"), []);
    assert Lookup(Ascii("E")).Err? by {
      AsciiAt("E", 0);
      AsciiAt("A", 0);
      AsciiAt("B", 0);
      AsciiAt("C", 0);
      AsciiAt("D", 0);
    }
    RackAnswered(s, OneByte, pick, 1, Ascii("E"), 1);
  }

  /** The command loop of the scenario below, and the report it closes with. */
  lemma UnknownTypeClosed(rest: seq<seq<byte>>, pick: nat -> ProductType)
    requires rest == [Frame(RackCmd), Frame(Ascii("E"))]
    ensures Close(Run(State(Link(rest, 1, [Ascii("4")]), 1, 0), OneByte, pick))
      == Report(Abandoned(UnknownProductType(Ascii("E"))), [Ascii("4"), InfoRequest], 1, 2)
  {
    var s := State(Link(rest, 1, [Ascii("4")]), 1, 0);
    LoopUnknownType(s, pick);
    assert Run(s, OneByte, pick).0.link.replies == [Ascii("4"), InfoRequest];
  }

  /** `rack` answered with a type outside the tables: the controller sends
      "ireq", the lookup fails, the loop is abandoned and the connection closed. */
  lemma ScenarioUnknownType(inbound: seq<seq<byte>>, pick: nat -> ProductType)
    requires inbound == [Frame(Ready), Frame(Ascii("speed?")), Frame(RackCmd), Frame(Ascii("E"))]
    ensures Connect(inbound, OneByte, pick)
      == Report(Abandoned(UnknownProductType(Ascii("E"))), [Ascii("4"), InfoRequest], 1, 2)
  {
    var rest := [Frame(RackCmd), Frame(Ascii("E"))];
    assert inbound == [Frame(Ready), Frame(Ascii("speed?"))] + rest;
    ScenarioSetup(rest, pick);
    UnknownTypeClosed(rest, pick);
  }

  /** The loop part of the next scenario: `product` split over two reads,
      then an empty read. */
  lemma LoopDisconnect(s: State, pick: nat -> ProductType)
    requires s.link.pending == [Ascii("pro"), Ascii("duct!"), []]
    ensures Run(s, OneByte, pick).1 == Failed(ConnectionBroken)
    ensures Run(s, OneByte, pick).0.link.replies == s.link.replies + [ProductId(s.next)]
    ensures Run(s, OneByte, pick).0.next == s.next + 1
  {
    var parts := [Ascii("pro"), Ascii("duct!")];
    assert Concat(parts) == ProductCmd + [Bang] by {
      assert Concat(parts) == Ascii("pro") + (Ascii("duct!") + Concat([]));
      assert Ascii("pro") + Ascii("duct!") == Ascii("product!");
    }
    assert Bang !in ProductCmd;
    assert s.link.pending == parts + [[]];
    ChunkingInvariance(ProductCmd, parts, [[]]);
    ProductLabelled(s, OneByte, pick, 2);
    var s1 := Step(s, OneByte, pick).state;
    assert s1.link.pending == [[]];
    BrokenReadStops(s1, OneByte, pick);
  }

  /** The command loop of the scenario below, and the report it closes with. */
  lemma DisconnectClosed(rest: seq<seq<byte>>, pick: nat -> ProductType)
    requires rest == [Ascii("pro"), Ascii("duct!"), []]
    ensures Close(Run(State(Link(rest, 1, [Ascii("4")]), 1, 0), OneByte, pick))
      == Report(Abandoned(ConnectionBroken), [Ascii("4"), Ascii("ID_1")], 2, 2)
  {
    var s := State(Link(rest, 1, [Ascii("4")]), 1, 0);
    LoopDisconnect(s, pick);
    assert Run(s, OneByte, pick).0.link.replies == [Ascii("4"), ProductId(1)];
    FirstLabel();
  }

  /** The simulation sends `product` in two reads, then closes: the label is
      delivered, the next read is empty, and the loop is abandoned. */
  lemma ScenarioDisconnect(inbound: seq<seq<byte>>, pick: nat -> ProductType)
    requires inbound == [Frame(Ready), Frame(Ascii("speed?")), Ascii("pro"), Ascii("duct!"), []]
    ensures Connect(inbound, OneByte, pick)
      == Report(Abandoned(ConnectionBroken), [Ascii("4"), Ascii("ID_1")], 2, 2)
  {
    var rest := [Ascii("pro"), Ascii("duct!"), []];
    assert inbound == [Frame(Ready), Frame(Ascii("speed?"))] + rest;
    ScenarioSetup(rest, pick);
    DisconnectClosed(rest, pick);
  }
}

=== FILE: wire.dfy ===
/** Bytes on the wire, the error kinds of the connection, and a small
    Result type used by every layer above the socket. */
module Wire {

  /** One octet of the stream socket. */
  newtype byte = b: int | 0 <= b < 256

  /** The frame terminator `!` (0x21) that ends every message the simulation sends. */
  const Bang: byte := 33

  /** The bytes of an ASCII token such as "maxprod" or "ireq". Every token of
      the protocol is plain ASCII, so encoding and decoding are the identity on
      character codes; the reduction modulo 256 only keeps the function total.
      AsciiAt states the encoding byte by byte. */
  function Ascii(s: string): (b: seq<byte>)
    ensures |b| == |s|
  {
    seq(|s|, i requires 0 <= i < |s| => (s[i] as int % 256) as byte)
  }

  /** Each byte of an encoded token is the code of the character at the
      same position. */
  lemma AsciiAt(s: string, i: nat)
    requires i < |s|
    ensures Ascii(s)[i] as int == s[i] as int % 256
  {
  }

  /** Encoding a token piece by piece gives the encoding of the whole. */
  lemma AsciiAppend(s: string, t: string)
    ensures Ascii(s + t) == Ascii(s) + Ascii(t)
  {
    var l, r := Ascii(s + t), Ascii(s) + Ascii(t);
    forall i | 0 <= i < |l|
      ensures l[i] == r[i]
    {
      if i < |s| {
        assert (s + t)[i] == s[i];
      } else {
        assert (s + t)[i] == t[i - |s|];
      }
    }
  }

  /** Everything that makes the connection give up.
      - ConnectionBroken: a receive returned no bytes or a send reported 0 bytes written.
      - NotReady: the first message was not READY.
      - UnknownProductType: the rack/slot tables have no entry for the reported type. */
  datatype Error =
    | ConnectionBroken
    | NotReady
    | UnknownProductType(token: seq<byte>)

  datatype Result<+T> = Ok(value: T) | Err(error: Error)

  /** The chunks joined in order, as `b''.join(chunks)` does: nothing joins
      to nothing, one chunk joins to itself, and a longer join starts with
      the first chunk. */
  function Concat(chunks: seq<seq<byte>>): (r: seq<byte>)
    ensures |chunks| == 0 ==> r == []
    ensures |chunks| == 1 ==> r == chunks[0]
    ensures |chunks| > 0 ==> |chunks[0]| <= |r| && r[..|chunks[0]|] == chunks[0]
  {
    if |chunks| == 0 then [] else chunks[0] + Concat(chunks[1..])
  }

  lemma {:induction false} ConcatAppend(a: seq<seq<byte>>, b: seq<seq<byte>>)
    ensures Concat(a + b) == Concat(a) + Concat(b)
  {
    if |a| == 0 {
      assert a + b == b;
    } else {
      assert (a + b)[1..] == a[1..] + b;
      ConcatAppend(a[1..], b);
    }
  }

  /** Joining chunks that are all non-empty yields at least one byte per chunk. */
  lemma {:induction false} ConcatLength(chunks: seq<seq<byte>>)
    requires forall j :: 0 <= j < |chunks| ==> |chunks[j]| > 0
    ensures |Concat(chunks)| >= |chunks|
  {
    if |chunks| > 0 {
      ConcatLength(chunks[1..]);
    }
  }
}
